=== FILE: README.md ===
# LeechBlockNG time-budget and schedule engine, in Dafny

This project models the decision core of the LeechBlockNG background script
(`background.js`). A user defines numbered *block sets*. Each set has URL
patterns, a daily schedule of minute periods, a time budget of `limitMins`
minutes per `limitPeriod` seconds, a choice of weekdays, an AND/OR combination
mode (`conjMode`), and a five-field time-data counter
`[created, total, periodStart, spentInPeriod, lockdownUntil]`.
The model covers five parts:

- **checkTab** (module `Decision`, built on `Periods` and `Counter`). For one
  tab and URL it decides whether some set blocks the page. It computes each
  set's seconds before its next period and before its budget runs out, and
  combines them with the lockdown timestamp under AND or OR semantics. It
  keeps the running minimum of "seconds left" and the first set reaching it.
  A redirect by the lowest redirecting set ends the scan; on a repeat check
  only a set with `activeBlock` redirects.
- **updateTimeData** (modules `Counter` and `Accounting`). Accrual of open or
  focused seconds into the counter of every set that counts the page. A
  malformed counter is repaired, a rollover resets the period count, and time
  counts only on selected days (in AND mode, only inside a period).
- **The eight-day projection** of `getUnblockTime` (module `Projection`).
  Today's and the next seven days' periods are shifted by multiples of 1440
  minutes on selected weekdays, and overlapping or touching periods are
  merged.
- **The unblock-time case analysis** of `getUnblockTime` (module `Unblock`).
  First the guards: a bad set number, a malformed counter, a set blocked
  around the clock, lockdown. Then the four cases {schedule, limit} × {AND, OR}.
- **clockPageTime** (module `Accounting`). The open/focus clock of a tab,
  which turns elapsed time into seconds and passes them on to accrual.

JavaScript's `Infinity` is `ExtendedInt.ExtInt` (`Fin(n)` or `Inf`). Every
time is a whole number of seconds, and every time of day is a minute since
midnight. Helpers whose code is not part of this model become fields of
`Config.Helpers` and are left uninterpreted:
- `testURL`;
- the page and hash parts of `getParsedURL`;
- the `about:addons` and `about:config` tests;
- `getTimePeriodStart`;
- `ALL_DAY_TIMES`;
- the minute of day of a timestamp.

`allTrue(days)` is defined here as every entry of `days` being true
(`Unblock.AllTrue`).

The parsed schedule `getMinPeriods(times)` is the set field `minPeriods`.
The current time is the `Config.Clock` record (`now`, weekday, minute, second
and today's midnight).

Two behaviours of the code worth knowing:
- In AND mode a set missing its schedule or its limit blocks only in lockdown
  (`background.js:162-164`); `Decision.AndModeNeedsBoth` states it.
- Accrual into the period also requires `timedata[2] >= 0`
  (`background.js:311`).

## Model

| member | source | states |
|---|---|---|
| ExtendedInt.Min | background.js:180 | `Math.min` on numbers with Infinity: the result is one of the two arguments and at most both |
| Periods.ScanPeriods | background.js:127-137 | the schedule scan is never negative; it is 0 exactly when the minute lies in some `[start, end)`; it is Infinity exactly when no period contains or follows the minute; otherwise it is the least `(start-mins)*60-secs` over later periods |
| Periods.SecsLeftBeforePeriod | background.js:121-138 | Infinity unless the day is selected and the schedule is non-empty; otherwise it has the properties of the scan |
| Config.Fresh | background.js:63 | definition; no contract: the record `{ url, blockable: false }` of a first check |
| Config.BlockableURL | background.js:67 | definition; no contract: the URL starts with `http`, `file` or `about` |
| Config.ClockedURL | background.js:210 | definition; no contract: the URL starts with `http` or `file`, the test both clock branches make (also line 228) |
| Counter.ToStored | background.js:323 | definition; no contract: the five-element array written back to `timedata<set>` |
| Counter.Parse | background.js:282 | a stored value is a counter exactly when it is an array of five numbers, and writing that counter back gives the same array |
| Counter.ParseToStored | background.js:323 | a counter written to the store reads back unchanged |
| Counter.Repair | background.js:281-284 | a malformed counter becomes `[now,0,0,0,0]`; a well-formed one is kept |
| Counter.AccrueOn | background.js:289-320 | on a well-formed counter: creation time and lockdown are kept and the total grows by the seconds; when counting applies with a positive period start and a non-negative stored start, the period start becomes the current one and the period count restarts at the seconds on a rollover or grows by them otherwise; in every other case both period fields are kept |
| Counter.Accrue | background.js:281-320 | the creation time and lockdown never change; the total grows by the seconds; when counting applies with a positive period start and a non-negative stored start, a rollover restarts the period count at the seconds and otherwise the count grows by them; the period fields are otherwise untouched |
| Counter.AccrueAdditive | background.js:311-320 | accruing `a` and then `b` in one period equals accruing `a+b` once |
| Counter.AccrueStoredAdditive | background.js:281-323 | the same additivity through the store, whatever the time of the second call |
| Counter.SecsLeftBeforeLimit | background.js:141-149 | never negative; finite exactly when the day is selected and both limit fields are set; a positive value is the budget minus the seconds spent in the current period (nothing spent when the stored period differs) |
| Counter.LimitZeroIffExhausted | background.js:141-152 | `afterTimeLimit` holds exactly when the day is selected, the limit is configured and the seconds spent in the current period reach the limit |
| Counter.AccrualExhaustsThenResets | background.js:311-320 | a counted accrual that reaches the limit leaves zero seconds in that period, and the full budget once the period start moves on |
| Decision.Lockdown | background.js:155 | definition; no contract: the stored lockdown end lies after the current time |
| Decision.Redirects | background.js:167 | definition; no contract: a set redirects when it applies to the page, blocks, and this is a first check or the set blocks actively |
| Decision.Applies | background.js:93-104 | definition; no contract: a set with a block pattern applies when the URL matches it or it protects the `about:addons`/`about:config` page shown |
| Decision.PageOf | background.js:74-80 | definition; no contract: the page URL without its hash part, unless the hash starts with `!` |
| Decision.EvalSet | background.js:117-180 | a set blocks exactly in lockdown or when the AND/OR combination of "inside a period today" and "budget exhausted" holds; its seconds left are non-negative and zero exactly when that combination holds; in AND mode they are the sum of the wait before the next period and the remaining budget, finite only when day, schedule and limit are all present; in OR mode they are the smaller of the two waits |
| Decision.AndModeNeedsBoth | background.js:161-164 | out of lockdown, an AND-mode set missing its schedule or its limit never blocks and offers Infinity |
| Decision.LockdownBlocks | background.js:154-164 | lockdown blocks whatever the schedule and budget say |
| Decision.ScanSets | background.js:88-186 | after any number of sets: a redirect names a redirecting set with no earlier one; the minimum is at most every evaluated offer; a finite minimum is reached first by the recorded set, since replacement needs a strictly smaller value; an infinite one leaves the set number as it was |
| Decision.ScanRedirectFacts | background.js:166-175 | the scan over all sets redirects exactly when some set redirects, and by the lowest such set |
| Decision.ScanMinimumFacts | background.js:177-184 | without a redirect, the scan ends with the least offer over all sets and the lowest set offering it |
| Decision.EvaluateSets | background.js:86-188 | only the blockable flag and the seconds-left fields of the record change; the redirect is by the lowest redirecting set, to that set's block URL for the page; without a redirect the record holds the least seconds left and the first set reaching it |
| Decision.CheckTab | background.js:59-189 | only tab `id` changes; blocked exactly when redirected; a first check starts a fresh record; a URL that is not http, file or about is never blocked, and its record is a fresh non-blockable one on a first check and otherwise the record as it was; otherwise the record becomes blockable and the sets decide on the page URL |
| Projection.Shift | background.js:438-441 | definition: each period of the day moved by the offset, in the same order |
| Projection.Push | background.js:442-453 | the step merges exactly when the list is non-empty and the period starts no later than the last end (line 447): the last period then keeps its start and takes the pushed end; otherwise the period is appended unchanged; either way the list stays separated and every earlier period but the last is kept |
| Projection.DayPeriods | background.js:433-441 | definition; no contract: the shifted periods of days `0 .. n-1` in loop order, before merging |
| Projection.MergeAll | background.js:432-457 | the merged list is separated (`prev.end < next.start`), no longer than its input, empty only for an empty input, and ends where the input ends |
| Projection.Project | background.js:430-457 | the eight-day merged list is separated and no longer than the unmerged one |
| Projection.NestedPeriodShrinks | background.js:446-449 | the merge assumes chained input: `[540, 1020)` followed by the nested `[600, 660)` merges to `[540, 660)`, losing minute 700 |
| Projection.MergeCovers | background.js:442-453 | merging a chain of non-empty periods covers exactly the minutes the periods covered, and every merged period is non-empty |
| Projection.DayPeriodsChained | background.js:433-441 | for a normalised day schedule, the shifted periods of consecutive selected days form a chain of non-empty periods with non-decreasing starts and ends |
| Projection.DayPeriodsCover | background.js:433-441 | a minute is covered by the first `n` days' shifted periods exactly when some day `i < n`, with weekday `(day+i)%7` selected, has a period containing the minute minus `i*1440` |
| Projection.ProjectCovers | background.js:430-457 | for a normalised day schedule, the eight-day projection is separated and non-empty period-wise, and covers a minute exactly when one of days 0-7 covers it |
| Projection.SeparatedUnique | background.js:442-453 | in a separated list of non-empty periods no minute lies in two periods |
| Projection.SeparatedOrdered | background.js:442-453 | in a separated list of non-empty periods, earlier periods end before later ones start |
| Accounting.Counts | background.js:260-265 | definition; no contract: a set with a block pattern counts time for a page its patterns match |
| Accounting.CountsInPeriod | background.js:295-308 | definition; no contract: time counts towards the period on a selected day and, in AND mode, only inside one of the set's periods |
| Accounting.AccrueSet | background.js:287-311 | definition; no contract: one set's counter accrued with the focused or open seconds, as the set chooses, with period counting decided by `CountsInPeriod` |
| Accounting.UpdateTimeData | background.js:245-326 | the number of sets is kept; a set that does not count the page is unchanged; a counting set changes only its counter, which becomes its accrued counter for the open or focused seconds as the set chooses |
| Accounting.UpdateKeepsCountersWellFormed | background.js:281-284 | after accrual, well-formed counters stay well formed |
| Accounting.UpdateKeepsLockdown | background.js:281-323 | accrual never changes a well-formed counter's lockdown time |
| Accounting.Clock1 | background.js:201-235 | a clock switched on keeps or starts its start time and yields nothing; switched off it stops, yielding the elapsed seconds only for an http or file page with a running clock |
| Accounting.ClockPageTime | background.js:193-241 | an unknown or non-blockable tab is ignored; otherwise only the two clocks of the tab change, each as `Clock1` does it: a new clock starts at the current time, a running one keeps its start, and a clock switched off on an http or file page yields the time since its start; the measured seconds are flushed exactly when one is positive |
| Accounting.ClockAndAccrue | background.js:237-240 | the tabs are the clocked tabs; without a flush the sets are unchanged, and after one they are updateTimeData's result for the tab's URL and the measured seconds; well-formed counters stay well formed |
| Accounting.ClockAccruesMeasuredSeconds | background.js:238-239 | after a flush, the total of every set that counts the tab's page grows by exactly the open or focused seconds measured, as the set chooses |
| Accounting.Tick | background.js:604-605 | for a known blockable tab, after the off/on pair the open clock restarts at the tick time, the focus clock runs from it exactly when focused, and the measured seconds are the time since each running clock started on an http or file page; an unknown or non-blockable tab is untouched |
| Accounting.TicksTelescope | background.js:603-605 | for a blockable http or file page, alarm ticks lose no open time: the open seconds they measure add up to the time from the page's opening to the last tick |
| Unblock.AllTrue | background.js:417 | definition; no contract: every weekday is selected |
| Unblock.AtMinute | background.js:469-473 | definition; no contract: today's midnight plus the minute count in seconds, running into later days past minute 1440 |
| Unblock.FirstContaining | background.js:466-475 | the first period containing the minute: none exactly when no period contains it, otherwise an index whose period contains it with no earlier one doing so |
| Unblock.EndOfPeriodAt | background.js:466-474 | a time exists exactly when a merged period contains the minute; it is the end of the first such period in list order and lies after that minute |
| Unblock.UnblockCases | background.js:459-525 | neither condition: null; limit only: the end of the stored limit period; schedule only: present exactly when the merged periods cover the minute, at the end of the first merged period covering it; AND mode: present exactly then, and the earlier of that end and the limit-period end; OR mode: the end of the first merged period covering the minute the limit decides on |
| Unblock.OrModeMinute | background.js:501-509 | definition; no contract: the minute of the end of the stored limit period when the budget is used up in the current period, the current minute otherwise |
| Unblock.GetUnblockTime | background.js:389-526 | null for a set number outside the sets, a malformed counter or an around-the-clock OR-mode set; the lockdown end in lockdown; otherwise the time of cases 1-4 |
| Unblock.ProjectToday | background.js:430-457 | for a normalised day schedule, the projection covers a minute of today exactly when today is selected and today's schedule covers it |
| Unblock.OnlyTodayActive | background.js:433-436 | only today's copy of a normalised schedule reaches a minute of today |
| Unblock.UnblockTimeIffWithin | background.js:462-475 | for a schedule-only set out of lockdown with a normalised day schedule, the block page has an unblock time exactly when checkTab sees the current minute inside a period today |
| Unblock.AlwaysBlocked | background.js:417 | definition; no contract: the whole-day schedule on every weekday in OR mode |
| Unblock.AlwaysBlockedHasNoUnblockTime | background.js:416-419 | a whole-day OR-mode set selected on every day never has an unblock time |
| Unblock.UnblockPeriodUnique | background.js:466-475 | for a normalised day schedule, the merged period that supplies the unblock time is the only one containing the minute |

## Left out

- Browser I/O (storage, `tabs.update`, messages, alarms, window focus, navigation listeners): a redirect is returned as a `Decision.Redirect` value, and the alarm loop appears only as the two clock calls of `Accounting.Tick`.
- The asynchronous ordering of option loading and alarm handling: event-loop concurrency with no algorithmic content.
- Regular-expression matching (`testURL`, the `about:` tests), URL parsing (`getParsedURL`), `getMinPeriods` and `getTimePeriodStart`: their code is not part of this model, so they are uninterpreted parameters.
- The shape of `getMinPeriods(times)`: the projection lemmas (`Projection.DayPeriodsChained`, `Projection.ProjectCovers`, `Unblock.ProjectToday`, `Unblock.UnblockTimeIffWithin`, `Unblock.UnblockPeriodUnique`) assume a normalised day schedule, meaning sorted, non-overlapping, non-empty periods inside `[0, 1440]`. The merge itself (`Projection.MergeAll`) is modelled for any input. Without that shape the source's merge overwrites `mp0.end = mp1.end` (line 449), so a period nested inside its predecessor shortens it: `Projection.NestedPeriodShrinks` shows `[540, 1020)` followed by `[600, 660)` merging to `[540, 660)`.
- The `$S`/`$U` substitution in the block URL: the redirect carries the set number, the URL template and the page URL instead.
- The JavaScript `Date` calendar: `new Date(y, m, d, 0, end)` is today's midnight plus `end` minutes (daylight-saving shifts are ignored), and every time is an integer number of seconds.
- Accounting.ClockPageTime: elapsed time is in whole seconds, not the fractional `(time - start) / 1000` of the source.
- Decision.CheckTab: requires every counter to be well formed. The source reads `timedata[2..4]` unchecked and relies on option cleaning elsewhere, which is not part of this model.
- Unblock.OrModeMinute: the minute of day of the limit-period end (case 4, lines 505-509) comes from an uninterpreted helper, so the OR-mode contract says only which minute is searched for.
- `limitMins` and `limitPeriod` are optional naturals, with the empty string as `None`; numeric strings and coercions are not modelled.
- The unused keyword condition (`keywords`, always true at line 159) is dropped.
- `formatTime`, `updateTimeLeftWidget`, `createBlockInfo` and the other event handlers: presentation and plumbing.

=== FILE: accounting.dfy ===
/** Time accounting: the open/focus clock of a tab (clockPageTime,
    background.js lines 193-241) and the accrual of the clocked seconds to
    every matching set (updateTimeData, lines 245-326). */
module Accounting {
  import opened Wrappers
  import opened Periods
  import opened Counter
  import opened Config

  /** A set counts time for the page (lines 261, 265): it has a block
      pattern and the URL matches it; unlike checkTab, accrual ignores the
      protected `about:` pages. */
  predicate Counts(b: BlockSet, h: Helpers, pageURL: string) {
    b.blockRE != "" && h.testURL(pageURL, b.blockRE, b.allowRE)
  }

  /** Lines 295-308: time counts towards the period only on a selected day
      and, in AND mode, only inside one of the set's periods. */
  predicate CountsInPeriod(b: BlockSet, c: Clock) {
    DaySelected(b.days, c.day) && (!b.conjMode || WithinAny(b.minPeriods, c.mins))
  }

  /** The new counter of set `b` after `secsOpen`/`secsFocus` seconds. */
  function AccrueSet(b: BlockSet, env: Env, secsOpen: int, secsFocus: int): TimeData {
    var secsSpent := if b.countFocus then secsFocus else secsOpen;
    Accrue(b.timedata, env.clock.now, secsSpent, CountsInPeriod(b, env.clock),
           env.h.periodStart(env.clock.now, b.limitPeriod))
  }

  /** updateTimeData(url, secsOpen, secsFocus) (lines 245-326): every set
      that counts time for the page gets its counter accrued with the open
      or focused seconds, as the set chooses; every other set, and every
      other option, is unchanged. */
  function UpdateTimeData(env: Env, url: string, secsOpen: int, secsFocus: int): (sets: seq<BlockSet>)
    ensures |sets| == |env.sets|
    ensures forall i :: 0 <= i < |sets| && !Counts(env.sets[i], env.h, env.h.parsedPage(url)) ==>
      sets[i] == env.sets[i]
    ensures forall i :: 0 <= i < |sets| && Counts(env.sets[i], env.h, env.h.parsedPage(url)) ==>
      && sets[i] == env.sets[i].(timedata := sets[i].timedata)
      && Parse(sets[i].timedata) == Some(AccrueSet(env.sets[i], env, secsOpen, secsFocus))
  {
    var pageURL := env.h.parsedPage(url);
    seq(|env.sets|, i requires 0 <= i < |env.sets| =>
      var b := env.sets[i];
      if Counts(b, env.h, pageURL) then b.(timedata := ToStored(AccrueSet(b, env, secsOpen, secsFocus))) else b)
  }

  /** Accrual keeps well-formed counters well formed. */
  lemma UpdateKeepsCountersWellFormed(env: Env, url: string, secsOpen: int, secsFocus: int)
    ensures WellFormedCounters(env.sets) ==> WellFormedCounters(UpdateTimeData(env, url, secsOpen, secsFocus))
  {
    var sets := UpdateTimeData(env, url, secsOpen, secsFocus);
    if WellFormedCounters(env.sets) {
      forall i | 0 <= i < |sets| ensures Parse(sets[i].timedata).Some? {
        if !Counts(env.sets[i], env.h, env.h.parsedPage(url)) {
          assert sets[i] == env.sets[i];
        }
      }
    }
  }

  /** Accrual never lifts or sets a lockdown: a well-formed counter keeps
      its lockdown time. */
  lemma UpdateKeepsLockdown(env: Env, url: string, secsOpen: int, secsFocus: int, i: nat)
    requires i < |env.sets|
    requires Parse(env.sets[i].timedata).Some?
    ensures Parse(UpdateTimeData(env, url, secsOpen, secsFocus)[i].timedata).Some?
    ensures Parse(UpdateTimeData(env, url, secsOpen, secsFocus)[i].timedata).value.lockdownUntil
         == Parse(env.sets[i].timedata).value.lockdownUntil
  {
  }

  /** The result of clockPageTime: the tabs, the open and focused seconds
      it measured, and whether it passed them to updateTimeData (line 238). */
  datatype ClockResult = ClockResult(tabs: map<int, TabState>, secsOpen: int, secsFocus: int, flushed: bool)

  /** One of the two clocks of lines 201-235: switched on, it keeps its
      start time or starts now; switched off, it stops and, for an http or
      file page, yields the seconds since it started. */
  function Clock1(start: Option<int>, on: bool, url: string, time: int): (r: (Option<int>, int))
    ensures on ==> r.0 == Some(start.GetOr(time)) && r.1 == 0
    ensures !on ==> r.0.None?
    ensures !on && start.Some? && ClockedURL(url) ==> r.1 == time - start.value
    ensures !(!on && start.Some? && ClockedURL(url)) ==> r.1 == 0
  {
    if on then (if start.None? then (Some(time), 0) else (start, 0))
    else if start.Some? then (None, if ClockedURL(url) then time - start.value else 0)
    else (None, 0)
  }

  /** clockPageTime(id, open, focus) at `time` (whole seconds; lines
      193-241). A tab that is unknown or not blockable is ignored. Otherwise
      only the two clocks of tab `id` change, and the seconds of a clock
      that is switched off are passed on when either is positive. */
  function ClockPageTime(tabs: map<int, TabState>, id: int, open: bool, focus: bool, time: int): (r: ClockResult)
    ensures r.tabs.Keys == tabs.Keys
    ensures forall other :: other in tabs && other != id ==> r.tabs[other] == tabs[other]
    ensures id !in tabs || !tabs[id].blockable ==> r == ClockResult(tabs, 0, 0, false)
    ensures id in tabs && tabs[id].blockable ==>
      && r.tabs[id] == tabs[id].(openTime := r.tabs[id].openTime, focusTime := r.tabs[id].focusTime)
      && (r.tabs[id].openTime, r.secsOpen) == Clock1(tabs[id].openTime, open, tabs[id].url, time)
      && (r.tabs[id].focusTime, r.secsFocus) == Clock1(tabs[id].focusTime, focus, tabs[id].url, time)
    ensures r.flushed <==> r.secsOpen > 0 || r.secsFocus > 0
    ensures r.secsOpen != 0 ==> !open && ClockedURL(tabs[id].url)
    ensures r.secsFocus != 0 ==> !focus && ClockedURL(tabs[id].url)
  {
    if id !in tabs || !tabs[id].blockable then ClockResult(tabs, 0, 0, false)
    else
      var t := tabs[id];
      var (openTime, secsOpen) := Clock1(t.openTime, open, t.url, time);
      var (focusTime, secsFocus) := Clock1(t.focusTime, focus, t.url, time);
      ClockResult(tabs[id := t.(openTime := openTime, focusTime := focusTime)],
                  secsOpen, secsFocus, secsOpen > 0 || secsFocus > 0)
  }

  /** Lines 237-240: clocking a tab and, when seconds were measured,
      accruing them to the sets that count time for the tab's URL. */
  function ClockAndAccrue(tabs: map<int, TabState>, id: int, open: bool, focus: bool, time: int, env: Env)
    : (r: (map<int, TabState>, seq<BlockSet>))
    ensures r.0 == ClockPageTime(tabs, id, open, focus, time).tabs
    ensures |r.1| == |env.sets|
    ensures var c := ClockPageTime(tabs, id, open, focus, time);
      && (!c.flushed ==> r.1 == env.sets)
      && (c.flushed ==> r.1 == UpdateTimeData(env, tabs[id].url, c.secsOpen, c.secsFocus))
    ensures WellFormedCounters(env.sets) ==> WellFormedCounters(r.1)
  {
    var c := ClockPageTime(tabs, id, open, focus, time);
    if c.flushed then
      UpdateKeepsCountersWellFormed(env, tabs[id].url, c.secsOpen, c.secsFocus);
      (c.tabs, UpdateTimeData(env, tabs[id].url, c.secsOpen, c.secsFocus))
    else (c.tabs, env.sets)
  }

  /** A flush accrues exactly the measured seconds: the total of a set
      that counts the tab's page grows by the open or the focused seconds,
      as the set chooses. */
  lemma ClockAccruesMeasuredSeconds(tabs: map<int, TabState>, id: int, open: bool, focus: bool, time: int,
                                    env: Env, i: nat)
    requires i < |env.sets| && Parse(env.sets[i].timedata).Some?
    requires ClockPageTime(tabs, id, open, focus, time).flushed
    requires Counts(env.sets[i], env.h, env.h.parsedPage(tabs[id].url))
    ensures var c := ClockPageTime(tabs, id, open, focus, time);
      var sets := ClockAndAccrue(tabs, id, open, focus, time, env).1;
      && Parse(sets[i].timedata).Some?
      && Parse(sets[i].timedata).value.total
         == Parse(env.sets[i].timedata).value.total + (if env.sets[i].countFocus then c.secsFocus else c.secsOpen)
  {
  }

  /** The alarm's forced update of one tab (lines 604-605): switch both
      clocks off, then switch the open clock back on and the focus clock on
      when the tab is focused. */
  function Tick(tabs: map<int, TabState>, id: int, focus: bool, time: int): (r: ClockResult)
    ensures r.tabs.Keys == tabs.Keys
    ensures id in tabs && tabs[id].blockable ==>
      && r.tabs[id].openTime == Some(time)
      && r.tabs[id].focusTime == (if focus then Some(time) else None)
      && r.secsOpen == (if tabs[id].openTime.Some? && ClockedURL(tabs[id].url) then time - tabs[id].openTime.value else 0)
      && r.secsFocus == (if tabs[id].focusTime.Some? && ClockedURL(tabs[id].url) then time - tabs[id].focusTime.value else 0)
    ensures id !in tabs || !tabs[id].blockable ==> r.tabs == tabs && r.secsOpen == 0 && r.secsFocus == 0
  {
    var off := ClockPageTime(tabs, id, false, false, time);
    var on := ClockPageTime(off.tabs, id, true, focus, time);
    ClockResult(on.tabs, off.secsOpen, off.secsFocus, off.flushed)
  }

  /** The open seconds measured by a series of alarm ticks at `times`. */
  function OpenSecsOverTicks(tabs: map<int, TabState>, id: int, focus: bool, times: seq<int>): int
    decreases |times|
  {
    if |times| == 0 then 0
    else
      var r := Tick(tabs, id, focus, times[0]);
      r.secsOpen + OpenSecsOverTicks(r.tabs, id, focus, times[1..])
  }

  /** The ticks lose no open time: for an http or file page opened at `t0`,
      the seconds measured by ticks at `times` add up to the time from `t0`
      to the last tick, and the page stays open from that tick on. */
  lemma {:induction false} TicksTelescope(tabs: map<int, TabState>, id: int, focus: bool, times: seq<int>, t0: int)
    requires id in tabs && tabs[id].blockable && ClockedURL(tabs[id].url)
    requires tabs[id].openTime == Some(t0)
    requires |times| > 0
    ensures OpenSecsOverTicks(tabs, id, focus, times) == times[|times| - 1] - t0
    decreases |times|
  {
    var r := Tick(tabs, id, focus, times[0]);
    assert r.secsOpen == times[0] - t0;
    assert r.tabs[id].openTime == Some(times[0]);
    if |times| > 1 {
      TicksTelescope(r.tabs, id, focus, times[1..], times[0]);
    }
  }
}

=== FILE: config.dfy ===
/** The inputs of the engine: block-set options, the current time, the
    helpers background.js calls but does not define, and the per-tab record. */
module Config {
  import opened Wrappers
  import opened ExtendedInt
  import opened Periods
  import opened Counter

  /** The options of one block set (`blockRE{n}`, `times{n}`, ...). An
      empty `limitMins`/`limitPeriod` option is `None`. `minPeriods` is what
      getMinPeriods returns for `times`. */
  datatype BlockSet = BlockSet(
    blockRE: string,
    allowRE: string,
    times: string,
    minPeriods: seq<Period>,
    limitMins: Option<nat>,
    limitPeriod: Option<nat>,
    conjMode: bool,
    days: seq<bool>,
    blockURL: string,
    activeBlock: bool,
    countFocus: bool,
    prevAddons: bool,
    prevConfig: bool,
    timedata: Stored)

  /** Day of the week, `Date.getDay()`, Sunday is 0. */
  type Weekday = d: int | 0 <= d < 7

  /** Whether weekday `d` is selected; an index outside `days` reads as
      JavaScript `undefined`, which is falsy. */
  predicate DaySelected(days: seq<bool>, d: int) {
    0 <= d < |days| && days[d]
  }

  /** The current time: `now` in whole seconds (`Math.floor(Date.now() / 1000)`),
      the local weekday, minute of the day and second of the minute, and the
      timestamp in seconds of today's local midnight. */
  datatype Clock = Clock(now: int, day: Weekday, mins: MinuteOfDay, secs: Second, midnight: int)

  /** Functions and constants background.js uses without defining them:
      `testURL(pageURL, blockRE, allowRE)`; the `page` and `hash` parts of
      getParsedURL; the `about:addons` and `about:config|support` tests;
      `getTimePeriodStart(now, limitPeriod)`; `ALL_DAY_TIMES`; and the local
      minute of the day of a timestamp in seconds. */
  datatype Helpers = Helpers(
    testURL: (string, string, string) -> bool,
    parsedPage: string -> string,
    parsedHash: string -> Option<string>,
    isAddonsPage: string -> bool,
    isConfigPage: string -> bool,
    periodStart: (int, Option<nat>) -> int,
    allDayTimes: string,
    minuteOfDay: int -> int)

  /** Everything one evaluation reads: the block sets (set number `i + 1`
      is `sets[i]`, so `NUM_SETS` is `|sets|`), the clock and the helpers. */
  datatype Env = Env(sets: seq<BlockSet>, clock: Clock, h: Helpers)

  /** The record `TABS[id]`; `None` stands for an `undefined` property. */
  datatype TabState = TabState(
    url: string,
    blockable: bool,
    openTime: Option<int>,
    focusTime: Option<int>,
    secsLeft: Option<ExtInt>,
    secsLeftSet: Option<nat>)

  /** `{ url: url, blockable: false }` (line 63). */
  function Fresh(url: string): TabState {
    TabState(url, false, None, None, None, None)
  }

  predicate HasPrefix(s: string, p: string) {
    |p| <= |s| && s[..|p|] == p
  }

  /** `/^(http|file|about)/` (line 67): pages the extension may block. */
  predicate BlockableURL(url: string) {
    HasPrefix(url, "http") || HasPrefix(url, "file") || HasPrefix(url, "about")
  }

  /** `/^(http|file)/` (lines 210, 228): pages whose time is clocked. */
  predicate ClockedURL(url: string) {
    HasPrefix(url, "http") || HasPrefix(url, "file")
  }

  /** The counter of set index `i`; the all-zero counter stands in for a
      malformed one, which the engine does not read (see CheckTab). */
  function CounterAt(env: Env, i: nat): TimeData
    requires i < |env.sets|
  {
    Parse(env.sets[i].timedata).GetOr(TimeData(0, 0, 0, 0, 0))
  }

  /** `getTimePeriodStart(now, limitPeriod)` for set index `i`. */
  function PeriodStartAt(env: Env, i: nat): int
    requires i < |env.sets|
  {
    env.h.periodStart(env.clock.now, env.sets[i].limitPeriod)
  }

  /** Every set's counter is a five-element array. checkTab reads the
      counter fields without a shape test, so the model assumes the options
      it is given hold well-formed counters; updateTimeData always writes
      such counters. */
  predicate WellFormedCounters(sets: seq<BlockSet>) {
    forall i :: 0 <= i < |sets| ==> Parse(sets[i].timedata).Some?
  }
}

=== FILE: counter.dfy ===
/** The five-field time-data counter of a block set and the two operations
    on it: accrual (updateTimeData, background.js lines 281-320) and the
    remaining budget (checkTab, lines 140-149). */
module Counter {
  import opened Wrappers
  import opened ExtendedInt

  /** `[created, total, periodStart, spentInPeriod, lockdownUntil]`, all
      in seconds. */
  datatype TimeData = TimeData(created: int, total: int, periodStart: int, spent: int, lockdownUntil: int)

  /** What the option store holds under `timedata{n}`: an array of numbers
      of any length, or some non-array value (for instance `undefined`). */
  datatype Stored = NotArray | Array(items: seq<int>)

  function ToStored(t: TimeData): Stored {
    Array([t.created, t.total, t.periodStart, t.spent, t.lockdownUntil])
  }

  /** The shape test of lines 282 and 412: an array of exactly five
      elements is a counter, anything else is malformed. */
  function Parse(s: Stored): (r: Option<TimeData>)
    ensures r.Some? <==> s.Array? && |s.items| == 5
    ensures r.Some? ==> ToStored(r.value) == s
  {
    if s.Array? && |s.items| == 5 then
      Some(TimeData(s.items[0], s.items[1], s.items[2], s.items[3], s.items[4]))
    else None
  }

  /** A counter written back to the store reads back unchanged. */
  lemma ParseToStored(t: TimeData)
    ensures Parse(ToStored(t)) == Some(t)
  {
  }

  /** Line 283: a malformed counter is replaced by `[now, 0, 0, 0, 0]`. */
  function Repair(s: Stored, now: int): (t: TimeData)
    ensures Parse(s).Some? ==> t == Parse(s).value
    ensures Parse(s).None? ==> t == TimeData(now, 0, 0, 0, 0)
  {
    match Parse(s)
    case Some(t) => t
    case None => TimeData(now, 0, 0, 0, 0)
  }

  /** Lines 289-320 on a well-formed counter: the total always grows by
      `secs`; when time counts in the current period, a positive period
      start and a non-negative stored period start are present, either a new
      period starts its count at `secs` or the current count grows by it. */
  function AccrueOn(t: TimeData, secs: int, count: bool, periodStart: int): (r: TimeData)
    ensures r.created == t.created && r.lockdownUntil == t.lockdownUntil
    ensures r.total == t.total + secs
    ensures count && periodStart > 0 && t.periodStart >= 0 ==> r.periodStart == periodStart
    ensures count && periodStart > 0 && t.periodStart >= 0 ==>
      r.spent == (if t.periodStart == periodStart then t.spent + secs else secs)
    ensures !(count && periodStart > 0 && t.periodStart >= 0) ==> r.periodStart == t.periodStart && r.spent == t.spent
  {
    var t1 := t.(total := t.total + secs);
    if count && periodStart > 0 && t1.periodStart >= 0 then
      if t1.periodStart != periodStart then t1.(periodStart := periodStart, spent := secs)
      else t1.(spent := t1.spent + secs)
    else t1
  }

  /** updateTimeData's whole update of one stored counter (lines 281-320). */
  function Accrue(s: Stored, now: int, secs: int, count: bool, periodStart: int): (t: TimeData)
    ensures t.created == Repair(s, now).created
    ensures t.lockdownUntil == Repair(s, now).lockdownUntil
    ensures t.total == Repair(s, now).total + secs
    ensures var c := Repair(s, now);
      if count && periodStart > 0 && c.periodStart >= 0 then
        && t.periodStart == periodStart
        && t.spent == (if c.periodStart == periodStart then c.spent + secs else secs)
      else t.periodStart == c.periodStart && t.spent == c.spent
  {
    AccrueOn(Repair(s, now), secs, count, periodStart)
  }

  /** Accruing `a` and then `b` seconds in one period gives the same
      counter as accruing `a + b` at once; in particular the period resets
      at most once. */
  lemma AccrueAdditive(t: TimeData, a: int, b: int, count: bool, periodStart: int)
    ensures AccrueOn(AccrueOn(t, a, count, periodStart), b, count, periodStart)
         == AccrueOn(t, a + b, count, periodStart)
  {
  }

  /** The same through the store: a counter stored after one accrual and
      accrued again equals a single accrual of the sum, whatever the time of
      the second call. */
  lemma AccrueStoredAdditive(s: Stored, now: int, later: int, a: int, b: int, count: bool, periodStart: int)
    ensures Accrue(ToStored(Accrue(s, now, a, count, periodStart)), later, b, count, periodStart)
         == Accrue(s, now, a + b, count, periodStart)
  {
    ParseToStored(Accrue(s, now, a, count, periodStart));
    AccrueAdditive(Repair(s, now), a, b, count, periodStart);
  }

  /** The seconds of the current period already spent: a stored period
      other than the current one counts as nothing spent. */
  function SpentInPeriod(t: TimeData, periodStart: int): int {
    if t.periodStart == periodStart then t.spent else 0
  }

  /** The budget of a set is configured: both limit fields are non-empty. */
  predicate LimitConfigured(limitMins: Option<nat>, limitPeriod: Option<nat>) {
    limitMins.Some? && limitPeriod.Some?
  }

  /** secsLeftBeforeLimit of checkTab (lines 141-149). */
  function SecsLeftBeforeLimit(onSelectedDay: bool, limitMins: Option<nat>, limitPeriod: Option<nat>,
                               t: TimeData, periodStart: int): (r: ExtInt)
    ensures NonNeg(r)
    ensures r.Fin? <==> onSelectedDay && LimitConfigured(limitMins, limitPeriod)
    ensures r.Fin? && r.n > 0 ==> r.n == limitMins.value * 60 - SpentInPeriod(t, periodStart)
  {
    if onSelectedDay && limitMins.Some? && limitPeriod.Some? then
      var budget := limitMins.value * 60;
      if t.periodStart == periodStart then
        var secs := budget - t.spent;
        Fin(if secs > 0 then secs else 0)
      else Fin(budget)
    else Inf
  }

  /** The budget is exhausted: on a selected day with a configured limit,
      the seconds spent in the current period reach the limit. */
  predicate Exhausted(onSelectedDay: bool, limitMins: Option<nat>, limitPeriod: Option<nat>,
                      t: TimeData, periodStart: int) {
    && onSelectedDay
    && LimitConfigured(limitMins, limitPeriod)
    && SpentInPeriod(t, periodStart) >= limitMins.value * 60
  }

  /** afterTimeLimit of checkTab (line 152): the remaining budget is zero
      exactly when the budget is exhausted. */
  lemma LimitZeroIffExhausted(onSelectedDay: bool, limitMins: Option<nat>, limitPeriod: Option<nat>,
                              t: TimeData, periodStart: int)
    ensures SecsLeftBeforeLimit(onSelectedDay, limitMins, limitPeriod, t, periodStart) == Fin(0)
        <==> Exhausted(onSelectedDay, limitMins, limitPeriod, t, periodStart)
  {
  }

  /** A budget accrual that counts and brings the period's seconds to the
      limit exhausts the budget in that period; once the period start moves
      on, the full budget is available again. */
  lemma AccrualExhaustsThenResets(t: TimeData, secs: int, limitMins: nat, limitPeriod: nat,
                                  periodStart: int, nextStart: int)
    requires periodStart > 0 && t.periodStart >= 0
    requires SpentInPeriod(t, periodStart) + secs >= limitMins * 60
    requires nextStart != periodStart
    ensures var t' := AccrueOn(t, secs, true, periodStart);
      && SecsLeftBeforeLimit(true, Some(limitMins), Some(limitPeriod), t', periodStart) == Fin(0)
      && SecsLeftBeforeLimit(true, Some(limitMins), Some(limitPeriod), t', nextStart) == Fin(limitMins * 60)
  {
  }
}

=== FILE: decision.dfy ===
/** The block decision of checkTab (background.js, lines 57-189). */
module Decision {
  import opened Wrappers
  import opened ExtendedInt
  import opened Periods
  import opened Counter
  import opened Config

  /** The page belongs to set `b` (lines 93, 102-104): the set has a block
      pattern and the URL matches it, or it is a protected `about:` page. */
  predicate Applies(b: BlockSet, h: Helpers, pageURL: string) {
    && b.blockRE != ""
    && (|| h.testURL(pageURL, b.blockRE, b.allowRE)
        || (b.prevAddons && h.isAddonsPage(pageURL))
        || (b.prevConfig && h.isConfigPage(pageURL)))
  }

  /** Lockdown is in force (line 155). */
  predicate Lockdown(t: TimeData, now: int) {
    t.lockdownUntil > now
  }

  /** Today is selected, the set has a schedule and the current minute lies
      in one of its periods. */
  predicate WithinToday(b: BlockSet, c: Clock) {
    DaySelected(b.days, c.day) && b.times != "" && WithinAny(b.minPeriods, c.mins)
  }

  /** The set's budget for the current period is used up today. */
  predicate BudgetExhausted(b: BlockSet, t: TimeData, c: Clock, periodStart: int) {
    Exhausted(DaySelected(b.days, c.day), b.limitMins, b.limitPeriod, t, periodStart)
  }

  /** The two block conditions under AND (`conjMode`) or OR semantics. */
  predicate Combine(conjMode: bool, within: bool, afterLimit: bool) {
    if conjMode then within && afterLimit else within || afterLimit
  }

  /** The verdict of one set: whether it blocks now, and how many seconds
      are left before it would. */
  datatype SetEval = SetEval(doBlock: bool, secsLeft: ExtInt)

  /** Lines 117-180 for one matching set. The block decision is lockdown or
      the combination of "inside a period" and "budget exhausted"; the
      seconds left are zero exactly when that combination holds, the sum of
      the two waits in AND mode and the smaller in OR mode. */
  function EvalSet(b: BlockSet, t: TimeData, c: Clock, periodStart: int): (e: SetEval)
    ensures e.doBlock <==> Lockdown(t, c.now) || Combine(b.conjMode, WithinToday(b, c), BudgetExhausted(b, t, c, periodStart))
    ensures NonNeg(e.secsLeft)
    ensures e.secsLeft == Fin(0) <==> Combine(b.conjMode, WithinToday(b, c), BudgetExhausted(b, t, c, periodStart))
    ensures b.conjMode && e.secsLeft.Fin? ==> DaySelected(b.days, c.day) && b.times != "" && LimitConfigured(b.limitMins, b.limitPeriod)
    ensures var onSelectedDay := DaySelected(b.days, c.day);
      var beforePeriod := SecsLeftBeforePeriod(onSelectedDay, b.times, b.minPeriods, c.mins, c.secs);
      var beforeLimit := SecsLeftBeforeLimit(onSelectedDay, b.limitMins, b.limitPeriod, t, periodStart);
      && (b.conjMode ==> e.secsLeft == Add(beforePeriod, beforeLimit))
      && (!b.conjMode ==>
            && Le(e.secsLeft, beforePeriod) && Le(e.secsLeft, beforeLimit)
            && (e.secsLeft == beforePeriod || e.secsLeft == beforeLimit))
  {
    var onSelectedDay := DaySelected(b.days, c.day);
    var beforePeriod := SecsLeftBeforePeriod(onSelectedDay, b.times, b.minPeriods, c.mins, c.secs);
    var beforeLimit := SecsLeftBeforeLimit(onSelectedDay, b.limitMins, b.limitPeriod, t, periodStart);
    LimitZeroIffExhausted(onSelectedDay, b.limitMins, b.limitPeriod, t, periodStart);
    var within := beforePeriod == Fin(0);
    var afterLimit := beforeLimit == Fin(0);
    var doBlock := Lockdown(t, c.now) || (!b.conjMode && (within || afterLimit)) || (b.conjMode && within && afterLimit);
    var secsLeft := if b.conjMode then Add(beforePeriod, beforeLimit) else Min(beforePeriod, beforeLimit);
    SetEval(doBlock, secsLeft)
  }

  /** In AND mode a set whose schedule or limit is missing blocks only in
      lockdown: the missing condition is never satisfied. */
  lemma AndModeNeedsBoth(b: BlockSet, t: TimeData, c: Clock, periodStart: int)
    requires b.conjMode && !Lockdown(t, c.now)
    requires b.times == "" || !LimitConfigured(b.limitMins, b.limitPeriod)
    ensures !EvalSet(b, t, c, periodStart).doBlock
    ensures EvalSet(b, t, c, periodStart).secsLeft == Inf
  {
  }

  /** Lockdown blocks whatever the schedule and budget say. */
  lemma LockdownBlocks(b: BlockSet, t: TimeData, c: Clock, periodStart: int)
    requires Lockdown(t, c.now)
    ensures EvalSet(b, t, c, periodStart).doBlock
  {
  }

  function EvalAt(env: Env, i: nat): SetEval
    requires i < |env.sets|
  {
    EvalSet(env.sets[i], CounterAt(env, i), env.clock, PeriodStartAt(env, i))
  }

  /** Set index `i` redirects the page (line 167): the set applies, it
      blocks, and this is a first check of the URL or the set blocks
      actively. */
  predicate Redirects(env: Env, pageURL: string, isRepeat: bool, i: nat)
    requires i < |env.sets|
  {
    Applies(env.sets[i], env.h, pageURL) && EvalAt(env, i).doBlock && (!isRepeat || env.sets[i].activeBlock)
  }

  /** Seconds left that set index `i` offers to the running minimum; a set
      that does not apply offers Infinity, which never replaces it. */
  function Contribution(env: Env, pageURL: string, i: nat): ExtInt
    requires i < |env.sets|
  {
    if Applies(env.sets[i], env.h, pageURL) then EvalAt(env, i).secsLeft else Inf
  }

  /** What the loop of checkTab needs to know about one set: whether it
      redirects and what it offers to the minimum. */
  datatype Verdict = Verdict(redirects: bool, offer: ExtInt)

  /** The state of the loop of lines 90-186 after some sets: the running
      minimum `TABS[id].secsLeft`, `TABS[id].secsLeftSet`, and the number of
      the set that redirected, if one did. */
  datatype Scan = Scan(secsLeft: ExtInt, secsLeftSet: Option<nat>, redirect: Option<nat>)

  /** How many sets the loop evaluated: all `n`, or those before the set
      that redirected. */
  function Reached(r: Scan, n: nat): nat {
    if r.redirect.Some? && r.redirect.value >= 1 then r.redirect.value - 1 else n
  }

  /** Set number `k`, among the first `upto` verdicts, is the lowest-numbered
      set whose offer is `v`, all earlier sets offering more. */
  predicate FirstReaching(vs: seq<Verdict>, v: ExtInt, k: nat, upto: nat)
    requires upto <= |vs|
  {
    && 1 <= k <= upto
    && vs[k - 1].offer == v
    && forall j :: 0 <= j < k - 1 ==> Lt(v, vs[j].offer)
  }

  /** What the loop of lines 90-186 has established after the first `n`
      verdicts, scanned into `r`: a redirect names a redirecting set and no
      earlier set redirects; over the sets evaluated, `secsLeft` is at most
      every offer and, when finite, `secsLeftSet` is the lowest set reaching
      it, because a later set replaces it only when strictly smaller; an
      infinite minimum leaves `secsLeftSet` as it was. */
  predicate ScanInvariant(vs: seq<Verdict>, init: Option<nat>, r: Scan, n: nat)
    requires n <= |vs|
  {
    && (r.redirect.Some? ==> 1 <= r.redirect.value <= n && vs[r.redirect.value - 1].redirects)
    && (forall j :: 0 <= j < Reached(r, n) ==> !vs[j].redirects)
    && (forall j :: 0 <= j < Reached(r, n) ==> Le(r.secsLeft, vs[j].offer))
    && (r.secsLeft.Inf? ==> r.secsLeftSet == init)
    && (r.secsLeft.Fin? ==> r.secsLeftSet.Some? && FirstReaching(vs, r.secsLeft, r.secsLeftSet.value, Reached(r, n)))
  }

  /** A value strictly below `b` is strictly below everything `b` is at
      most. */
  lemma LtLeChain(a: ExtInt, b: ExtInt)
    ensures Lt(a, b) ==> forall c :: Le(b, c) ==> Lt(a, c)
  {
  }

  /** The loop of lines 90-186 over the first `n` sets, given each set's
      verdict: a redirect stops the loop, and otherwise a strictly smaller
      offer replaces the minimum. A set that does not apply is skipped by
      the source; its offer of Infinity never replaces the minimum. */
  function ScanSets(vs: seq<Verdict>, init: Option<nat>, n: nat): (r: Scan)
    requires n <= |vs|
    ensures ScanInvariant(vs, init, r, n)
    decreases n
  {
    if n == 0 then Scan(Inf, init, None)
    else
      var acc := ScanSets(vs, init, n - 1);
      var v := vs[n - 1];
      if acc.redirect.Some? then acc
      else if v.redirects then acc.(redirect := Some(n))
      else if Lt(v.offer, acc.secsLeft) then
        LtLeChain(v.offer, acc.secsLeft);
        Scan(v.offer, Some(n), None)
      else acc
  }

  /** What a redirect carries: the set number, the set's block-page URL
      template and the page URL substituted for `$S` and `$U` (line 169). */
  datatype Redirect = Redirect(setNumber: nat, blockURL: string, pageURL: string)

  datatype CheckResult = CheckResult(tabs: map<int, TabState>, blocked: bool, redirect: Option<Redirect>)

  /** The page URL of `url` as checkTab tests it (lines 74-80): the page
      without its hash part, unless the hash part is a hash-bang. */
  function PageOf(env: Env, url: string): string {
    var page := env.h.parsedPage(url);
    var hash := env.h.parsedHash(url);
    if hash.Some? && HasPrefix(hash.value, "!") then page + "#" + hash.value else page
  }

  /** The verdicts of all sets for the page, in set order. */
  function Verdicts(env: Env, pageURL: string, isRepeat: bool): (vs: seq<Verdict>)
    ensures |vs| == |env.sets|
    ensures forall i :: 0 <= i < |vs| ==>
      vs[i].redirects == Redirects(env, pageURL, isRepeat, i) && vs[i].offer == Contribution(env, pageURL, i)
  {
    seq(|env.sets|, i requires 0 <= i < |env.sets| =>
      Verdict(Redirects(env, pageURL, isRepeat, i), Contribution(env, pageURL, i)))
  }

  /** `k` is the number of the lowest set that redirects the page, or
      None when no set does. */
  predicate LowestRedirect(env: Env, pageURL: string, isRepeat: bool, k: Option<nat>) {
    && (k.Some? <==> exists j :: 0 <= j < |env.sets| && Redirects(env, pageURL, isRepeat, j))
    && (k.Some? ==>
          && 1 <= k.value <= |env.sets|
          && Redirects(env, pageURL, isRepeat, k.value - 1)
          && forall j :: 0 <= j < k.value - 1 ==> !Redirects(env, pageURL, isRepeat, j))
  }

  /** `v` is the least offer over all sets; when finite, `vset` is the
      number of the lowest set offering it, and when infinite `vset` is the
      earlier `init`. */
  predicate LeastSecsLeft(env: Env, pageURL: string, init: Option<nat>, v: ExtInt, vset: Option<nat>) {
    && (forall j :: 0 <= j < |env.sets| ==> Le(v, Contribution(env, pageURL, j)))
    && (v.Inf? ==> vset == init)
    && (v.Fin? ==>
          && vset.Some?
          && 1 <= vset.value <= |env.sets|
          && Contribution(env, pageURL, vset.value - 1) == v
          && forall j :: 0 <= j < vset.value - 1 ==> Lt(v, Contribution(env, pageURL, j)))
  }

  /** The scan over all sets redirects by the lowest redirecting set. */
  lemma ScanRedirectFacts(env: Env, pageURL: string, isRepeat: bool, init: Option<nat>)
    ensures LowestRedirect(env, pageURL, isRepeat, ScanSets(Verdicts(env, pageURL, isRepeat), init, |env.sets|).redirect)
  {
  }

  /** Without a redirect the scan over all sets ends with the least offer
      and the lowest set offering it. */
  lemma ScanMinimumFacts(env: Env, pageURL: string, isRepeat: bool, init: Option<nat>)
    ensures var s := ScanSets(Verdicts(env, pageURL, isRepeat), init, |env.sets|);
      s.redirect.None? ==> LeastSecsLeft(env, pageURL, init, s.secsLeft, s.secsLeftSet)
  {
    var vs := Verdicts(env, pageURL, isRepeat);
    var s := ScanSets(vs, init, |env.sets|);
    assert s.redirect.None? ==> Reached(s, |env.sets|) == |env.sets|;
  }

  /** The number of the set a redirect names. */
  function SetOf(r: Option<Redirect>): Option<nat> {
    if r.Some? then Some(r.value.setNumber) else None
  }

  /** Lines 86-188 for a blockable page: the sets are evaluated in order
      against the tab record `rec`. The page is redirected exactly when some
      set redirects it, by the lowest such set, to that set's block page;
      without a redirect the record holds the least seconds left over all
      sets and the first set reaching it. */
  function EvaluateSets(rec: TabState, pageURL: string, isRepeat: bool, env: Env): (o: (TabState, Option<Redirect>))
    ensures o.0 == rec.(blockable := true, secsLeft := o.0.secsLeft, secsLeftSet := o.0.secsLeftSet)
    ensures LowestRedirect(env, pageURL, isRepeat, SetOf(o.1))
    ensures o.1.Some? ==>
      o.1.value.blockURL == env.sets[o.1.value.setNumber - 1].blockURL && o.1.value.pageURL == pageURL
    ensures o.1.None? ==>
      o.0.secsLeft.Some? && LeastSecsLeft(env, pageURL, rec.secsLeftSet, o.0.secsLeft.value, o.0.secsLeftSet)
  {
    var s := ScanSets(Verdicts(env, pageURL, isRepeat), rec.secsLeftSet, |env.sets|);
    ScanRedirectFacts(env, pageURL, isRepeat, rec.secsLeftSet);
    ScanMinimumFacts(env, pageURL, isRepeat, rec.secsLeftSet);
    var rec' := rec.(blockable := true, secsLeft := Some(s.secsLeft), secsLeftSet := s.secsLeftSet);
    match s.redirect
    case Some(k) => (rec', Some(Redirect(k, env.sets[k - 1].blockURL, pageURL)))
    case None => (rec', None)
  }

  /** checkTab(id, url, isRepeat) (lines 59-189). Only the record of tab
      `id` changes. A first check of a URL starts a fresh record; a URL that
      is not http, file or about is never blocked and its record is left as
      it was or, on a first check, fresh and non-blockable. Otherwise the
      record becomes blockable and the sets decide. The engine reads every
      set's counter unchecked, so the counters must be well formed. */
  function CheckTab(tabs: map<int, TabState>, id: int, url: string, isRepeat: bool, env: Env): (r: CheckResult)
    requires WellFormedCounters(env.sets)
    ensures r.tabs.Keys == tabs.Keys + {id}
    ensures forall other :: other in tabs && other != id ==> r.tabs[other] == tabs[other]
    ensures r.blocked <==> r.redirect.Some?
    ensures id !in tabs || !isRepeat ==>
      r.tabs[id].url == url && r.tabs[id].openTime.None? && r.tabs[id].focusTime.None?
    ensures !BlockableURL(url) ==>
      !r.blocked && r.tabs[id] == (if id !in tabs || !isRepeat then Fresh(url) else tabs[id])
    ensures BlockableURL(url) ==>
      && r.tabs[id].blockable
      && (r.tabs[id], r.redirect) == EvaluateSets(if id !in tabs || !isRepeat then Fresh(url) else tabs[id],
                                                   PageOf(env, url), isRepeat, env)
  {
    var rec := if id !in tabs || !isRepeat then Fresh(url) else tabs[id];
    if !BlockableURL(url) then
      CheckResult(tabs[id := rec], false, None)
    else
      var o := EvaluateSets(rec, PageOf(env, url), isRepeat, env);
      CheckResult(tabs[id := o.0], o.1.Some?, o.1)
  }
}

=== FILE: extended.dfy ===
/** Integers extended with JavaScript's `Infinity`, as used for the
    "seconds left before blocking" values of the decision engine. */
module ExtendedInt {

  datatype ExtInt = Fin(n: int) | Inf

  /** JavaScript's `a < b` on numbers where either may be `Infinity`. */
  predicate Lt(a: ExtInt, b: ExtInt) {
    a.Fin? && (b.Inf? || a.n < b.n)
  }

  /** JavaScript's `a <= b` on numbers where either may be `Infinity`. */
  predicate Le(a: ExtInt, b: ExtInt) {
    b.Inf? || (a.Fin? && a.n <= b.n)
  }

  /** JavaScript's `a + b`: `Infinity` absorbs any finite summand. */
  function Add(a: ExtInt, b: ExtInt): ExtInt {
    if a.Fin? && b.Fin? then Fin(a.n + b.n) else Inf
  }

  /** JavaScript's `Math.min(a, b)`. */
  function Min(a: ExtInt, b: ExtInt): (r: ExtInt)
    ensures Le(r, a) && Le(r, b)
    ensures r == a || r == b
  {
    if Lt(b, a) then b else a
  }

  /** A value that is finite and non-negative, or infinite. */
  predicate NonNeg(a: ExtInt) {
    a.Fin? ==> a.n >= 0
  }
}

=== FILE: periods.dfy ===
/** Daily time periods and the "seconds left before a time period starts"
    scan of checkTab (background.js, lines 120-138). */
module Periods {
  import opened ExtendedInt

  /** A time period `[start, end)` in minutes since midnight, as produced
      by getMinPeriods from the textual schedule of a block set. */
  datatype Period = Period(start: int, end: int)

  /** Seconds of the current minute, as returned by `Date.getSeconds()`. */
  type Second = s: int | 0 <= s < 60

  /** Minutes elapsed since midnight, `getHours() * 60 + getMinutes()`. */
  type MinuteOfDay = m: int | 0 <= m < 1440

  /** Minute `m` lies inside the period. */
  predicate Contains(p: Period, m: int) {
    p.start <= m < p.end
  }

  /** The period has not started yet at minute `m`. */
  predicate Upcoming(p: Period, m: int) {
    m < p.start
  }

  /** Seconds from `mins:secs` until the period starts. */
  function SecsUntil(p: Period, mins: int, secs: int): int {
    (p.start - mins) * 60 - secs
  }

  /** Some period of `ps` contains minute `m`. */
  predicate WithinAny(ps: seq<Period>, m: int) {
    exists i :: 0 <= i < |ps| && Contains(ps[i], m)
  }

  /** Some period of `ps` starts after minute `m`. */
  predicate AnyUpcoming(ps: seq<Period>, m: int) {
    exists i :: 0 <= i < |ps| && Upcoming(ps[i], m)
  }

  /** `v` is the least number of seconds until one of the upcoming periods
      of `ps` starts. */
  predicate LeastUpcoming(ps: seq<Period>, mins: int, secs: int, v: int) {
    && (exists i :: 0 <= i < |ps| && Upcoming(ps[i], mins) && SecsUntil(ps[i], mins, secs) == v)
    && (forall i :: 0 <= i < |ps| && Upcoming(ps[i], mins) ==> v <= SecsUntil(ps[i], mins, secs))
  }

  /** The prefix `ps[..|ps|-1]` and the last element together cover what
      `ps` covers. */
  lemma {:induction false} SplitLast(ps: seq<Period>, m: int)
    requires |ps| > 0
    ensures WithinAny(ps, m) <==> WithinAny(ps[..|ps|-1], m) || Contains(ps[|ps|-1], m)
    ensures AnyUpcoming(ps, m) <==> AnyUpcoming(ps[..|ps|-1], m) || Upcoming(ps[|ps|-1], m)
  {
    var q := ps[..|ps|-1];
    if WithinAny(ps, m) {
      var i :| 0 <= i < |ps| && Contains(ps[i], m);
      if i < |q| { assert Contains(q[i], m); }
    }
    if WithinAny(q, m) {
      var i :| 0 <= i < |q| && Contains(q[i], m);
      assert Contains(ps[i], m);
    }
    if AnyUpcoming(ps, m) {
      var i :| 0 <= i < |ps| && Upcoming(ps[i], m);
      if i < |q| { assert Upcoming(q[i], m); }
    }
    if AnyUpcoming(q, m) {
      var i :| 0 <= i < |q| && Upcoming(q[i], m);
      assert Upcoming(ps[i], m);
    }
  }

  /** The loop of checkTab over the periods of one block set (lines 127-137),
      written as a fold over the prefix of `ps`: zero when the current minute
      is inside a period, otherwise the fewest seconds until a later period
      starts, otherwise Infinity. */
  function ScanPeriods(ps: seq<Period>, mins: MinuteOfDay, secs: Second): (r: ExtInt)
    ensures NonNeg(r)
    ensures r == Fin(0) <==> WithinAny(ps, mins)
    ensures r.Inf? <==> !WithinAny(ps, mins) && !AnyUpcoming(ps, mins)
    ensures r.Fin? && !WithinAny(ps, mins) ==> LeastUpcoming(ps, mins, secs, r.n)
    decreases |ps|
  {
    if |ps| == 0 then Inf
    else
      var q := ps[..|ps|-1];
      var p := ps[|ps|-1];
      var acc := ScanPeriods(q, mins, secs);
      SplitLast(ps, mins);
      if Contains(p, mins) then Fin(0)
      else if Upcoming(p, mins) then
        var s := SecsUntil(p, mins, secs);
        if Lt(Fin(s), acc) then
          assert forall i :: 0 <= i < |q| ==> q[i] == ps[i];
          Fin(s)
        else
          assert forall i :: 0 <= i < |q| ==> q[i] == ps[i];
          acc
      else
        assert forall i :: 0 <= i < |q| ==> q[i] == ps[i];
        acc
  }

  /** secsLeftBeforePeriod of checkTab (lines 121-138): the scan applies
      only on a selected day of a set whose schedule text is non-empty. */
  function SecsLeftBeforePeriod(onSelectedDay: bool, times: string, ps: seq<Period>,
                                mins: MinuteOfDay, secs: Second): (r: ExtInt)
    ensures NonNeg(r)
    ensures r == Fin(0) <==> onSelectedDay && times != "" && WithinAny(ps, mins)
    ensures r.Inf? <==> !(onSelectedDay && times != "") || (!WithinAny(ps, mins) && !AnyUpcoming(ps, mins))
    ensures r.Fin? && r.n > 0 ==> LeastUpcoming(ps, mins, secs, r.n)
  {
    if onSelectedDay && times != "" then ScanPeriods(ps, mins, secs) else Inf
  }
}

=== FILE: projection.dfy ===
/** The eight-day projection and merge of time periods in getUnblockTime
    (background.js, lines 430-457). */
module Projection {
  import opened Periods
  import opened Config

  const MinsPerDay := 1440

  /** The periods of one day moved by `offset` minutes (lines 438-441). */
  function Shift(ps: seq<Period>, offset: int): (r: seq<Period>)
    ensures |r| == |ps|
    ensures forall k :: 0 <= k < |ps| ==> r[k] == Period(ps[k].start + offset, ps[k].end + offset)
  {
    seq(|ps|, k requires 0 <= k < |ps| => Period(ps[k].start + offset, ps[k].end + offset))
  }

  /** The block of periods contributed by day `i` after today. */
  function DayBlock(ps: seq<Period>, days: seq<bool>, day: int, i: nat): seq<Period> {
    if DaySelected(days, (day + i) % 7) then Shift(ps, i * MinsPerDay) else []
  }

  /** The periods of days `0 .. n-1` after today, in the order the nested
      loops of lines 433-456 visit them, before merging. */
  function DayPeriods(ps: seq<Period>, days: seq<bool>, day: int, n: nat): seq<Period>
    decreases n
  {
    if n == 0 then [] else DayPeriods(ps, days, day, n - 1) + DayBlock(ps, days, day, n - 1)
  }

  /** Consecutive periods are separated by a gap: `prev.end < next.start`. */
  predicate Separated(r: seq<Period>) {
    forall i :: 0 <= i && i + 1 < |r| ==> r[i].end < r[i + 1].start
  }

  /** Every period is non-empty. */
  predicate Proper(r: seq<Period>) {
    forall i :: 0 <= i < |r| ==> r[i].start < r[i].end
  }

  /** One step of the merge (lines 442-453): a period that starts no later
      than the end of the last kept period extends it, any other is kept. */
  function Push(acc: seq<Period>, p: Period): (r: seq<Period>)
    requires Separated(acc)
    ensures Separated(r)
    ensures |r| > 0 && r[|r| - 1].end == p.end
    ensures |acc| <= |r| <= |acc| + 1
    ensures forall i :: 0 <= i < |acc| - 1 ==> r[i] == acc[i]
    ensures |r| == |acc| <==> |acc| > 0 && p.start <= acc[|acc| - 1].end
    ensures |r| == |acc| + 1 ==> r[|r| - 1] == p && (|acc| > 0 ==> r[|acc| - 1] == acc[|acc| - 1])
    ensures |r| == |acc| ==> r[|r| - 1].start == acc[|acc| - 1].start
  {
    if |acc| == 0 then [p]
    else if p.start <= acc[|acc| - 1].end then
      acc[..|acc| - 1] + [Period(acc[|acc| - 1].start, p.end)]
    else
      acc + [p]
  }

  /** The merged list `allMinPeriods` built from `qs` in order. */
  function MergeAll(qs: seq<Period>): (r: seq<Period>)
    ensures Separated(r)
    ensures |r| <= |qs|
    ensures |r| == 0 <==> |qs| == 0
    ensures |qs| > 0 ==> r[|r| - 1].end == qs[|qs| - 1].end
    decreases |qs|
  {
    if |qs| == 0 then [] else Push(MergeAll(qs[..|qs| - 1]), qs[|qs| - 1])
  }

  /** The merge relies on chained input: a period nested inside the one
      before it overwrites that period's end, so minutes are lost. */
  lemma NestedPeriodShrinks()
    ensures MergeAll([Period(540, 1020), Period(600, 660)]) == [Period(540, 660)]
    ensures WithinAny([Period(540, 1020), Period(600, 660)], 700)
    ensures !WithinAny(MergeAll([Period(540, 1020), Period(600, 660)]), 700)
  {
    assert Contains([Period(540, 1020), Period(600, 660)][0], 700);
  }

  /** The periods of today and the next seven days, merged (lines 430-457). */
  function Project(ps: seq<Period>, days: seq<bool>, day: int): (r: seq<Period>)
    ensures Separated(r)
    ensures |r| <= |DayPeriods(ps, days, day, 8)|
  {
    MergeAll(DayPeriods(ps, days, day, 8))
  }

  /** Inputs whose periods are non-empty and whose starts and ends both
      never decrease: the shape of a day-by-day list of normalised periods. */
  predicate Chained(qs: seq<Period>) {
    && Proper(qs)
    && forall k :: 0 <= k && k + 1 < |qs| ==> qs[k].start <= qs[k + 1].start && qs[k].end <= qs[k + 1].end
  }

  /** A normalised schedule for one day: sorted, non-overlapping, non-empty
      periods inside `[0, 1440]`, the form a day's schedule normalises to. */
  predicate NormalizedDay(ps: seq<Period>) {
    && (forall k :: 0 <= k < |ps| ==> 0 <= ps[k].start < ps[k].end <= MinsPerDay)
    && (forall k :: 0 <= k && k + 1 < |ps| ==> ps[k].end <= ps[k + 1].start)
  }

  lemma {:induction false} WithinConcat(a: seq<Period>, b: seq<Period>, m: int)
    ensures WithinAny(a + b, m) <==> WithinAny(a, m) || WithinAny(b, m)
  {
    if WithinAny(a + b, m) {
      var i :| 0 <= i < |a + b| && Contains((a + b)[i], m);
      if i < |a| { assert Contains(a[i], m); } else { assert Contains(b[i - |a|], m); }
    }
    if WithinAny(a, m) {
      var i :| 0 <= i < |a| && Contains(a[i], m);
      assert Contains((a + b)[i], m);
    }
    if WithinAny(b, m) {
      var i :| 0 <= i < |b| && Contains(b[i], m);
      assert Contains((a + b)[|a| + i], m);
    }
  }

  lemma WithinSingleton(p: Period, m: int)
    ensures WithinAny([p], m) <==> Contains(p, m)
  {
    if Contains(p, m) { assert Contains([p][0], m); }
  }

  /** One merge step adds exactly the minutes of the pushed period, when it
      starts and ends no earlier than the last kept period. */
  lemma PushCoversAt(acc: seq<Period>, p: Period, m: int)
    requires Separated(acc)
    requires |acc| > 0 ==> acc[|acc| - 1].start <= p.start && acc[|acc| - 1].end <= p.end
    ensures WithinAny(Push(acc, p), m) <==> WithinAny(acc, m) || Contains(p, m)
  {
    var r := Push(acc, p);
    if |acc| == 0 {
      WithinSingleton(p, m);
    } else if p.start <= acc[|acc| - 1].end {
      var last := acc[|acc| - 1];
      var init := acc[..|acc| - 1];
      var merged := Period(last.start, p.end);
      assert r == init + [merged];
      assert acc == init + [last];
      WithinConcat(init, [merged], m);
      WithinConcat(init, [last], m);
      WithinSingleton(last, m);
      WithinSingleton(merged, m);
    } else {
      WithinConcat(acc, [p], m);
      WithinSingleton(p, m);
    }
  }

  /** A merge step onto non-empty periods, pushing a non-empty period that
      starts no earlier than the last kept one, keeps every period non-empty
      and leaves the last start at most the pushed start. */
  lemma PushProper(acc: seq<Period>, p: Period)
    requires Separated(acc) && Proper(acc) && p.start < p.end
    requires |acc| > 0 ==> acc[|acc| - 1].start <= p.start
    ensures Proper(Push(acc, p))
    ensures Push(acc, p)[|Push(acc, p)| - 1].start <= p.start
  {
  }

  /** Merging a chained list loses and adds no minute: a minute is in the
      merged list exactly when it is in one of the input periods. */
  lemma {:induction false} MergeCovers(qs: seq<Period>)
    requires Chained(qs)
    ensures Proper(MergeAll(qs))
    ensures |qs| > 0 ==> MergeAll(qs)[|MergeAll(qs)| - 1].start <= qs[|qs| - 1].start
    ensures forall m :: WithinAny(MergeAll(qs), m) <==> WithinAny(qs, m)
    decreases |qs|
  {
    if |qs| > 0 {
      var q := qs[..|qs| - 1];
      var p := qs[|qs| - 1];
      assert Chained(q);
      MergeCovers(q);
      var acc := MergeAll(q);
      assert MergeAll(qs) == Push(acc, p);
      PushProper(acc, p);
      forall m
        ensures WithinAny(MergeAll(qs), m) <==> WithinAny(qs, m)
      {
        SplitLast(qs, m);
        PushCoversAt(acc, p, m);
      }
    }
  }

  /** Every period of day block `i` lies inside day `i`. */
  lemma DayBlockBounds(ps: seq<Period>, days: seq<bool>, day: int, i: nat)
    requires NormalizedDay(ps)
    ensures Chained(DayBlock(ps, days, day, i))
    ensures forall k :: 0 <= k < |DayBlock(ps, days, day, i)| ==>
      i * MinsPerDay <= DayBlock(ps, days, day, i)[k].start && DayBlock(ps, days, day, i)[k].end <= (i + 1) * MinsPerDay
  {
  }

  /** The unmerged eight-day list of a normalised schedule is chained and
      ends no later than the end of day `n - 1`. */
  lemma {:induction false} DayPeriodsChained(ps: seq<Period>, days: seq<bool>, day: int, n: nat)
    requires NormalizedDay(ps)
    ensures Chained(DayPeriods(ps, days, day, n))
    ensures forall k :: 0 <= k < |DayPeriods(ps, days, day, n)| ==> DayPeriods(ps, days, day, n)[k].end <= n * MinsPerDay
    decreases n
  {
    if n > 0 {
      DayPeriodsChained(ps, days, day, n - 1);
      DayBlockBounds(ps, days, day, n - 1);
      var a: seq<Period> := DayPeriods(ps, days, day, n - 1);
      var b: seq<Period> := DayBlock(ps, days, day, n - 1);
      var ab: seq<Period> := a + b;
      assert DayPeriods(ps, days, day, n) == ab;
      forall k | 0 <= k && k + 1 < |ab|
        ensures ab[k].start <= ab[k + 1].start && ab[k].end <= ab[k + 1].end
      {
        if k + 1 == |a| {
          assert ab[k] == a[k] && ab[k + 1] == b[0];
        }
      }
    }
  }

  /** Minute `m` of the projection is covered by day `i`'s copy of `ps`. */
  predicate ActiveOn(ps: seq<Period>, days: seq<bool>, day: int, i: int, m: int) {
    DaySelected(days, (day + i) % 7) && WithinAny(ps, m - i * MinsPerDay)
  }

  lemma ShiftWithin(ps: seq<Period>, offset: int, m: int)
    ensures WithinAny(Shift(ps, offset), m) <==> WithinAny(ps, m - offset)
  {
    var s := Shift(ps, offset);
    if WithinAny(s, m) {
      var i :| 0 <= i < |s| && Contains(s[i], m);
      assert Contains(ps[i], m - offset);
    }
    if WithinAny(ps, m - offset) {
      var i :| 0 <= i < |ps| && Contains(ps[i], m - offset);
      assert Contains(s[i], m);
    }
  }

  /** Day `i`'s block covers minute `m` exactly when day `i` is active at `m`. */
  lemma DayBlockCover(ps: seq<Period>, days: seq<bool>, day: int, i: nat, m: int)
    ensures WithinAny(DayBlock(ps, days, day, i), m) <==> ActiveOn(ps, days, day, i, m)
  {
    ShiftWithin(ps, i * MinsPerDay, m);
  }

  /** One of the first `n` days is active at minute `m`. */
  predicate AnyActive(ps: seq<Period>, days: seq<bool>, day: int, n: nat, m: int)
    decreases n
  {
    n > 0 && (AnyActive(ps, days, day, n - 1, m) || ActiveOn(ps, days, day, n - 1, m))
  }

  lemma {:induction false} AnyActiveExists(ps: seq<Period>, days: seq<bool>, day: int, n: nat, m: int)
    ensures AnyActive(ps, days, day, n, m) <==> exists i :: 0 <= i < n && ActiveOn(ps, days, day, i, m)
    decreases n
  {
    if n > 0 {
      AnyActiveExists(ps, days, day, n - 1, m);
      if exists i :: 0 <= i < n && ActiveOn(ps, days, day, i, m) {
        var i :| 0 <= i < n && ActiveOn(ps, days, day, i, m);
        if i < n - 1 {
          assert exists j :: 0 <= j < n - 1 && ActiveOn(ps, days, day, j, m);
        }
      }
    }
  }

  /** Before merging, minute `m` is covered exactly when one of the first
      `n` days is selected and its schedule covers `m`. */
  lemma {:induction false} DayPeriodsCover(ps: seq<Period>, days: seq<bool>, day: int, n: nat, m: int)
    ensures WithinAny(DayPeriods(ps, days, day, n), m) <==> exists i :: 0 <= i < n && ActiveOn(ps, days, day, i, m)
  {
    DayPeriodsAnyActive(ps, days, day, n, m);
    AnyActiveExists(ps, days, day, n, m);
  }

  lemma {:induction false} DayPeriodsAnyActive(ps: seq<Period>, days: seq<bool>, day: int, n: nat, m: int)
    ensures WithinAny(DayPeriods(ps, days, day, n), m) <==> AnyActive(ps, days, day, n, m)
    decreases n
  {
    if n > 0 {
      DayPeriodsAnyActive(ps, days, day, n - 1, m);
      WithinConcat(DayPeriods(ps, days, day, n - 1), DayBlock(ps, days, day, n - 1), m);
      DayBlockCover(ps, days, day, n - 1, m);
    }
  }

  /** The eight-day projection of a normalised schedule covers minute `m`
      (counted from today's midnight) exactly when today or one of the next
      seven days is selected and that day's schedule covers `m`; its periods
      are non-empty and separated by gaps. */
  lemma ProjectCovers(ps: seq<Period>, days: seq<bool>, day: int, m: int)
    requires NormalizedDay(ps)
    ensures Separated(Project(ps, days, day)) && Proper(Project(ps, days, day))
    ensures WithinAny(Project(ps, days, day), m) <==> exists i :: 0 <= i <= 7 && ActiveOn(ps, days, day, i, m)
  {
    DayPeriodsChained(ps, days, day, 8);
    MergeCovers(DayPeriods(ps, days, day, 8));
    DayPeriodsCover(ps, days, day, 8, m);
  }

  /** In a separated list of non-empty periods no minute lies in two
      periods: a minute is in exactly one period or in none. */
  lemma {:induction false} SeparatedUnique(r: seq<Period>, i: int, j: int, m: int)
    requires Separated(r) && Proper(r)
    requires 0 <= i < |r| && 0 <= j < |r|
    requires Contains(r[i], m) && Contains(r[j], m)
    ensures i == j
  {
    if i < j { SeparatedOrdered(r, i, j); }
    if j < i { SeparatedOrdered(r, j, i); }
  }

  lemma {:induction false} SeparatedOrdered(r: seq<Period>, i: int, j: int)
    requires Separated(r) && Proper(r)
    requires 0 <= i < j < |r|
    ensures r[i].end < r[j].start
    decreases j - i
  {
    if i + 1 < j {
      SeparatedOrdered(r, i + 1, j);
    }
  }
}

=== FILE: unblock.dfy ===
/** The unblock time shown on the block page (getUnblockTime,
    background.js lines 389-526). */
module Unblock {
  import opened Wrappers
  import opened Periods
  import opened Projection
  import opened Counter
  import opened Config
  import opened Decision

  /** allTrue(days): every weekday is selected. */
  predicate AllTrue(days: seq<bool>) {
    forall i :: 0 <= i < |days| ==> days[i]
  }

  /** The index of the first period of `ps` containing minute `m`: the
      search loops of lines 466-475, 486-497 and 512-521. */
  function FirstContaining(ps: seq<Period>, m: int): (r: Option<nat>)
    ensures r.None? <==> !WithinAny(ps, m)
    ensures r.Some? ==> r.value < |ps| && Contains(ps[r.value], m)
    ensures r.Some? ==> forall j :: 0 <= j < r.value ==> !Contains(ps[j], m)
    decreases |ps|
  {
    if |ps| == 0 then None
    else if Contains(ps[0], m) then Some(0)
    else
      var rest := FirstContaining(ps[1..], m);
      assert forall j :: 0 < j < |ps| ==> ps[j] == ps[1..][j - 1];
      if rest.Some? then Some(rest.value + 1)
      else
        assert forall j :: 0 <= j < |ps| ==> !Contains(ps[j], m) by {
          forall j | 0 < j < |ps| ensures !Contains(ps[j], m) {
            assert ps[j] == ps[1..][j - 1];
          }
        }
        None
  }

  /** `new Date(y, m, d, 0, minutes)` for today's date, in seconds: the
      minute counts from today's midnight and may run into later days. */
  function AtMinute(c: Clock, minutes: int): int {
    c.midnight + minutes * 60
  }

  /** The first period of `ps` containing minute `m` ends at minute `e`. */
  predicate EndsAt(ps: seq<Period>, m: int, e: int) {
    exists i :: 0 <= i < |ps| && Contains(ps[i], m) && ps[i].end == e
      && forall j :: 0 <= j < i ==> !Contains(ps[j], m)
  }

  /** The end, in seconds, of the first merged period containing minute
      `m`, if any; it lies after minute `m` of today. */
  function EndOfPeriodAt(all: seq<Period>, m: int, c: Clock): (r: Option<int>)
    ensures r.Some? <==> WithinAny(all, m)
    ensures r.Some? ==> r.value > AtMinute(c, m) && exists e :: EndsAt(all, m, e) && r.value == AtMinute(c, e)
  {
    match FirstContaining(all, m)
    case Some(i) =>
      assert EndsAt(all, m, all[i].end);
      Some(AtMinute(c, all[i].end))
    case None => None
  }

  /** The set can never be unblocked: a whole-day schedule on every day in
      OR mode (line 417). */
  predicate AlwaysBlocked(b: BlockSet, h: Helpers) {
    b.times == h.allDayTimes && AllTrue(b.days) && !b.conjMode
  }

  /** The minute the OR-mode case searches for (lines 501-509): the minute
      of the end of the current limit period when the budget is used up,
      the current minute otherwise. */
  function OrModeMinute(b: BlockSet, t: TimeData, env: Env, periodStart: int): int
    requires b.limitMins.Some? && b.limitPeriod.Some?
  {
    var afterTimeLimit := t.periodStart == periodStart && t.spent >= b.limitMins.value * 60;
    if afterTimeLimit then env.h.minuteOfDay(t.periodStart + b.limitPeriod.value) else env.clock.mins
  }

  /** Cases 1-4 of getUnblockTime (lines 459-523), for a set out of
      lockdown with counter `t` and merged periods `all` (the projection of
      the set's schedule): with only a schedule, the end of the merged
      period containing the current minute; with only a limit, the end of
      the current limit period; with both in AND mode, the earlier of the
      two; with both in OR mode, the end of the merged period containing
      the minute the limit decides on; with neither, `null`. */
  function UnblockCases(b: BlockSet, t: TimeData, all: seq<Period>, env: Env): (r: Option<int>)
    ensures var mins := env.clock.mins;
            && (b.times == "" && !LimitConfigured(b.limitMins, b.limitPeriod) ==> r.None?)
            && (b.times == "" && LimitConfigured(b.limitMins, b.limitPeriod) ==>
                  r == Some(t.periodStart + b.limitPeriod.value))
            && (b.times != "" && !LimitConfigured(b.limitMins, b.limitPeriod) ==>
                  && (r.Some? <==> WithinAny(all, mins))
                  && (r.Some? ==> r.value > AtMinute(env.clock, mins)
                                  && (exists e :: EndsAt(all, mins, e) && r.value == AtMinute(env.clock, e))))
            && (b.times != "" && LimitConfigured(b.limitMins, b.limitPeriod) && b.conjMode ==>
                  && (r.Some? <==> WithinAny(all, mins))
                  && (r.Some? ==> r.value <= t.periodStart + b.limitPeriod.value
                                  && (exists e :: EndsAt(all, mins, e) && r.value <= AtMinute(env.clock, e)
                                       && (r.value == AtMinute(env.clock, e) || r.value == t.periodStart + b.limitPeriod.value))))
            && (b.times != "" && LimitConfigured(b.limitMins, b.limitPeriod) && !b.conjMode ==>
                  var m := OrModeMinute(b, t, env, env.h.periodStart(env.clock.now, b.limitPeriod));
                  && (r.Some? <==> WithinAny(all, m))
                  && (r.Some? ==> exists e :: EndsAt(all, m, e) && r.value == AtMinute(env.clock, e)))
  {
    var mins := env.clock.mins;
    var timePeriods := b.times != "";
    var timeLimit := b.limitMins.Some? && b.limitPeriod.Some?;
    if timePeriods && !timeLimit then
      // Case 1: within time periods (no time limit)
      EndOfPeriodAt(all, mins, env.clock)
    else if !timePeriods && timeLimit then
      // Case 2: after time limit (no time periods)
      Some(t.periodStart + b.limitPeriod.value)
    else if timePeriods && timeLimit then
      if b.conjMode then
        // Case 3: within time periods AND after time limit
        match EndOfPeriodAt(all, mins, env.clock)
        case Some(td1) =>
          var td2 := t.periodStart + b.limitPeriod.value;
          Some(if td1 < td2 then td1 else td2)
        case None => None
      else
        // Case 4: within time periods OR after time limit
        var periodStart := env.h.periodStart(env.clock.now, b.limitPeriod);
        EndOfPeriodAt(all, OrModeMinute(b, t, env, periodStart), env.clock)
    else None
  }

  /** getUnblockTime(set) (lines 389-526), in seconds. None (`null`) for a
      set number outside `1..NUM_SETS`, a malformed counter and a set that
      is always blocked; in lockdown the end of the lockdown; otherwise the
      time cases 1-4 find. */
  function GetUnblockTime(setNumber: int, env: Env): (r: Option<int>)
    ensures setNumber < 1 || setNumber > |env.sets| ==> r.None?
    ensures 1 <= setNumber <= |env.sets| ==>
      var b := env.sets[setNumber - 1];
      && (Parse(b.timedata).None? ==> r.None?)
      && (Parse(b.timedata).Some? && AlwaysBlocked(b, env.h) ==> r.None?)
      && (Parse(b.timedata).Some? && !AlwaysBlocked(b, env.h) ==>
            var t := Parse(b.timedata).value;
            && (env.clock.now < t.lockdownUntil ==> r == Some(t.lockdownUntil))
            && (env.clock.now >= t.lockdownUntil ==> r == UnblockCases(b, t, Project(b.minPeriods, b.days, env.clock.day), env)))
  {
    if setNumber < 1 || setNumber > |env.sets| then None
    else
      var b := env.sets[setNumber - 1];
      match Parse(b.timedata)
      case None => None
      case Some(t) =>
        if AlwaysBlocked(b, env.h) then None
        else if env.clock.now < t.lockdownUntil then Some(t.lockdownUntil)
        else UnblockCases(b, t, Project(b.minPeriods, b.days, env.clock.day), env)
  }

  /** For a normalised schedule, minute `m` of today lies in the eight-day
      projection exactly when today is selected and today's schedule
      contains `m`: later days start at or after minute 1440. */
  lemma ProjectToday(ps: seq<Period>, days: seq<bool>, day: Weekday, m: MinuteOfDay)
    requires NormalizedDay(ps)
    ensures WithinAny(Project(ps, days, day), m) <==> DaySelected(days, day) && WithinAny(ps, m)
  {
    ProjectCovers(ps, days, day, m);
    if WithinAny(Project(ps, days, day), m) {
      var i :| 0 <= i <= 7 && ActiveOn(ps, days, day, i, m);
      OnlyTodayActive(ps, days, day, i, m);
    }
    if DaySelected(days, day) && WithinAny(ps, m) {
      TodayActive(ps, days, day, m);
    }
  }

  lemma TodayActive(ps: seq<Period>, days: seq<bool>, day: Weekday, m: int)
    requires DaySelected(days, day) && WithinAny(ps, m)
    ensures ActiveOn(ps, days, day, 0, m)
  {
    assert m - 0 * MinsPerDay == m && (day + 0) % 7 == day;
  }

  /** Only today's copy of a normalised schedule reaches a minute of today. */
  lemma OnlyTodayActive(ps: seq<Period>, days: seq<bool>, day: Weekday, i: int, m: MinuteOfDay)
    requires NormalizedDay(ps) && 0 <= i && ActiveOn(ps, days, day, i, m)
    ensures i == 0 && DaySelected(days, day) && WithinAny(ps, m)
  {
    var k :| 0 <= k < |ps| && Contains(ps[k], m - i * MinsPerDay);
    assert 0 <= ps[k].start <= m - i * MinsPerDay;
  }

  /** The block page and the decision engine agree: for a schedule-only set
      out of lockdown with a normalised schedule, an unblock time exists
      exactly when the set's schedule covers the current minute today. */
  lemma UnblockTimeIffWithin(setNumber: int, env: Env)
    requires 1 <= setNumber <= |env.sets|
    requires Parse(env.sets[setNumber - 1].timedata).Some?
    requires env.clock.now >= Parse(env.sets[setNumber - 1].timedata).value.lockdownUntil
    requires !AlwaysBlocked(env.sets[setNumber - 1], env.h)
    requires env.sets[setNumber - 1].times != "" && !LimitConfigured(env.sets[setNumber - 1].limitMins, env.sets[setNumber - 1].limitPeriod)
    requires NormalizedDay(env.sets[setNumber - 1].minPeriods)
    ensures GetUnblockTime(setNumber, env).Some? <==> WithinToday(env.sets[setNumber - 1], env.clock)
  {
    var b := env.sets[setNumber - 1];
    ProjectToday(b.minPeriods, b.days, env.clock.day, env.clock.mins);
  }

  /** A whole-day OR-mode set selected on every day is never reported as
      unblocking, whatever its counter holds. */
  lemma AlwaysBlockedHasNoUnblockTime(setNumber: int, env: Env)
    requires 1 <= setNumber <= |env.sets| && AlwaysBlocked(env.sets[setNumber - 1], env.h)
    ensures GetUnblockTime(setNumber, env).None?
  {
  }

  /** The merged period that supplies an unblock time is the only one
      containing its minute. */
  lemma UnblockPeriodUnique(ps: seq<Period>, days: seq<bool>, day: int, m: int, i: nat, j: nat)
    requires NormalizedDay(ps)
    requires i < |Project(ps, days, day)| && j < |Project(ps, days, day)|
    requires Contains(Project(ps, days, day)[i], m) && Contains(Project(ps, days, day)[j], m)
    ensures i == j
  {
    ProjectCovers(ps, days, day, m);
    SeparatedUnique(Project(ps, days, day), i, j, m);
  }
}

=== FILE: wrappers.dfy ===
/** Optional values: the model's stand-in for JavaScript's `undefined`,
    `null` and the empty-string "not configured" option values. */
module Wrappers {

  datatype Option<+T> = None | Some(value: T) {

    /** Returns the value held in Some, or `default` for None. */
    function GetOr(default: T): T {
      match this
      case Some(v) => v
      case None => default
    }
  }
}
